=== FILE: README.md ===
# ID3 decision trees, modelled in Dafny

This project models the core of a small ID3 decision-tree learner:

- `src/id3/id3_helper.py`: the split-selection arithmetic, namely `plogp`, `entropy`, `information_gain` and `pick_best_feature`.
- `src/id3/id3_algo.py`: the recursive builder `id3_algo` with its tree type `DecisionTreeNode`, and the tree's dictionary form `to_dict` / `from_dict`.
- `src/id3/node.py`: the generic parent-linked tree `Node`.

The modules are:

- `Maybe` (`maybe.dfy`): `Option`.
- `Seqs` (`seqs.dfy`): duplicate-free sequences and the first occurrence of an element, shared by `unique()`, the order-independent sums and `list.remove`.
- `Table` (`table.dfy`): a pandas frame as a sequence of rows, each row a map from column name to cell. Also defines the frame operations the core uses:
  - `unique()` (`Unique`, values in first-appearance order);
  - boolean selection `df[df[c] == v]` (`Filter`);
  - the row count of a selection (`Count`);
  - the fact that the selections by the distinct values of a column partition the frame.
- `ArgMax` (`argmax.dfy`): the left-to-right scan that keeps the first strictly larger score. It is shared by `pick_best_feature` and by the choice of a most frequent label.
- `Sums` (`sums.dfy`): finite real sums over a duplicate-free listing of keys, and their independence from the listing order. `information_gain` iterates a Python `set`.
- `Id3Helper` (`id3_helper.dfy`): `plogp`, `entropy`, `information_gain` and `pick_best_feature`:
  - Gains are `real`s.
  - `math.log` is a parameter `log: Log`. The lemmas that need a property of it say so (`LogOfOneIsZero`, `LogNonPositiveBelowOne`).
  - The value `plogp` returns for a one-row frame is a parameter `rule: OneRow`. `AsWritten` is the source's `1`; `Corrected` is `0` (see Findings).
- `Id3Algo` (`id3_algo.dfy`): `DecisionTreeNode` as `Node(value, children)`, and the builder:
  - `Build` is `id3_algo` parameterised by the gain that ranks candidate features. `Id3` instantiates it with information gain.
  - `Grow` covers an empty frame as well.
  - The lemmas prove what every built tree satisfies: it fits the rows, every leaf label is observed, no feature repeats on a path, and the depth is bounded by the number of features.
- `TreeDict` (`tree_dict.dfy`): `to_dict` and the inverse that `from_dict` is documented to be, over a JSON-value datatype. It also contains `from_dict` as written, as the outcome of a call: the receiver's `value` and `children` afterwards, and whether the call returned or which exception it raised (see Findings).
- `ParentTree` (`parent_tree.dfy`): `node.py`. Python object identity is a heap `map<Id, Rec>`, so `Node(...)`, `add_child` and `remove_child` are functions from heap to heap. `get_level` is a loop over the parent chain. A ghost witness of the ancestor chain carries its termination argument.

## Model

| member | source | states |
|---|---|---|
| `Table.Unique` | src/id3/id3_helper.py:31 | `unique()` lists every value of the column exactly once, in order of first appearance: no duplicates, the same set of values as the column, and each entry's first row coming before the first row of every later entry, so the first row's value is first; never more entries than rows |
| `Table.Filter` | src/id3/id3_helper.py:8 | the selection keeps columns. It is non-empty exactly when the value occurs in the column, and keeps every row exactly when every row carries the value, in which case it is the frame itself |
| `Table.FilterMembers` | src/id3/id3_algo.py:69 | a row is selected by `data[data[f] == v]` exactly when it is a row of the frame whose `f` is `v` |
| `Table.FilterAppend` | src/id3/id3_algo.py:69 | a boolean-mask selection keeps the rows in their original order: selecting from `a` followed by `b` gives the selection from `a` followed by the selection from `b` |
| `Table.OneUniqueValue` | src/id3/id3_algo.py:57 | `len(unique()) == 1` holds exactly when the frame is non-empty and every row has the same value |
| `Table.SingleValueColumn` | src/id3/id3_algo.py:57-58 | with a single distinct value, `unique()[0]` is the value of every row and selecting it keeps the whole frame |
| `Table.PartitionByUnique` | src/id3/id3_helper.py:42-48 | the selections by the distinct values of a column pool back to exactly the multiset of rows. Their sizes add up to the row count, and each one is non-empty |
| `Table.PartsDisjoint` | src/id3/id3_helper.py:44-45 | the selections for two different values of a column share no row |
| `Table.ValuesOfFilter` | src/id3/id3_algo.py:67-69 | the labels of a selection are labels of the frame it was selected from |
| `ArgMax.FirstArgMax` | src/id3/id3_helper.py:56-64 | the scan that starts from minus infinity and replaces its candidate only on a strictly larger score answers `None` exactly for an empty list, and otherwise a position of maximal score that no earlier position ties |
| `ArgMax.FirstMaxUnique` | src/id3/id3_helper.py:59-64 | that first maximal position is unique: with exact scores the choice depends on the scores and the list order alone (floating-point scores are not modelled, see Left out) |
| `Sums.SumReorder` | src/id3/id3_helper.py:42-44 | an exact real sum over a duplicate-free listing of keys does not depend on the listing order, so in exact arithmetic the `set` order of the loop does not change the gain |
| `Id3Helper.Share` | src/id3/id3_helper.py:16 | `prob` lies in [0, 1]. It is positive exactly when the value occurs, and 1 exactly when every row carries the value |
| `Id3Helper.Plogp` | src/id3/id3_helper.py:5-25 | an absent value gives 0. A one-row frame gives the one-row value (1 as written). Otherwise the result is `prob * log(prob, len(df))` |
| `Id3Helper.PlogpGuardsNeverDecide` | src/id3/id3_helper.py:10-19 | once a row matches, the frame is non-empty and `prob` is in (0, 1], so the empty-frame and `prob == 0` guards never decide |
| `Id3Helper.Entropy` | src/id3/id3_helper.py:28-34 | `entropy` over the distinct labels, 0 on an empty frame; the lemmas below give it over any listing of the labels, for one row, for one label, and its sign under the correction |
| `Id3Helper.EntropyOverAnyListing` | src/id3/id3_helper.py:28-34 | entropy is minus the sum of `plogp` over any duplicate-free listing of the labels |
| `Id3Helper.EntropyOfEmpty` | src/id3/id3_helper.py:28-34 | an empty frame has entropy 0 |
| `Id3Helper.EntropyOfOneRow` | src/id3/id3_helper.py:21-34 | a one-row frame has entropy minus the one-row value of `plogp`, which is -1 as written |
| `Id3Helper.EntropyOfOneLabel` | src/id3/id3_helper.py:22-34 | a frame of more than one row with one label has entropy 0 when log_b(1) = 0 |
| `Id3Helper.OneRowEntropyNegative` | src/id3/id3_helper.py:21-23 | as written, the one-row frame `{"Name": "cat"}` has entropy -1. With the correction it has entropy 0 |
| `Id3Helper.PlogpNonPositive` | src/id3/id3_helper.py:16-25 | with the correction, every `plogp` term is at most 0 when log is non-positive on (0, 1] |
| `Id3Helper.EntropyNonNegative` | src/id3/id3_helper.py:28-34 | with the correction, entropy is never negative |
| `Id3Helper.InformationGain` | src/id3/id3_helper.py:37-51 | `information_gain`: the entropy minus the share-weighted entropies of the partitions, 0 on an empty frame; the lemmas below give it over any order of the partitions, for a constant feature and for an identifier-like feature |
| `Id3Helper.GainOverAnyListing` | src/id3/id3_helper.py:37-51 | information gain is the entropy minus the share-weighted partition entropies, summed in any order of the distinct feature values |
| `Id3Helper.SharesSumToOne` | src/id3/id3_helper.py:44-48 | the weights `split_df.shape[0] / obs_df.shape[0]` of the partitions add up to 1 |
| `Id3Helper.GainOfConstantFeature` | src/id3/id3_helper.py:37-51 | a feature with one value on every row (the `Number of legs` column of the `df2` self-test) gains exactly 0 |
| `Id3Helper.GainOfEmpty` | src/id3/id3_helper.py:44-51 | on an empty frame the loop adds nothing and every feature gains 0 |
| `Id3Helper.GainOfSingletonPartitions` | src/id3/id3_helper.py:37-51 | a feature that puts every row in its own partition (an identifier column) gains the frame's entropy plus the one-row value of `plogp`: the entropy plus 1 as written, exactly the entropy with the correction |
| `Id3Helper.PickBestFeature` | src/id3/id3_helper.py:54-66 | `None` exactly when there are no features. Otherwise the pick is a listed feature of maximal gain, and the first such in list order |
| `Id3Helper.PickBestFeatureLoop` | src/id3/id3_helper.py:56-66 | the loop with `best_gain = -inf` and the strict `gain > best_gain` update returns exactly that feature |
| `Id3Algo.Without` | src/id3/id3_algo.py:70 | the comprehension drops every copy of the chosen feature and keeps every other one, so the list gets shorter; a list without the feature comes back unchanged |
| `Id3Algo.WithoutAppend` | src/id3/id3_algo.py:70 | dropping the feature from a concatenation drops it from each part, so with `Without` the survivors keep their order and their copies, which fixes the order `pick_best_feature` breaks ties by in the recursive calls |
| `Id3Algo.Mode` | src/id3/id3_algo.py:61-62 | `value_counts().idxmax()` is an observed label whose count no label exceeds; ties go to the label seen first |
| `Id3Algo.Build` | src/id3/id3_algo.py:40-73 | a leaf exactly when the rows share one label or no feature is left. A shared label is the leaf's value; otherwise the leaf holds a most frequent label. An internal node holds the feature `pick_best_feature` picks, with one child per value that feature takes |
| `Id3Algo.Children` | src/id3/id3_algo.py:67-72 | the loop over `data[best].unique()` makes one child per value `best` takes, with the first row's value among them, and every child's frame is a valid input for the recursive call |
| `Id3Algo.Grow` | src/id3/id3_algo.py:40-73 | on an empty frame the builder fails (`idxmax` raises) exactly when no feature is left, and otherwise returns a childless node named after a feature. On a non-empty frame it is `Build` |
| `Id3Algo.GrowOnEmptyFrame` | src/id3/id3_algo.py:57-73 | with information gain, an empty frame yields a childless node named after the first listed feature |
| `Id3Algo.ChildrenAdmissible` | src/id3/id3_algo.py:67-72 | every recursive call gets a non-empty frame holding the target and the remaining features, and one candidate fewer |
| `Id3Algo.BuildChild` | src/id3/id3_algo.py:67-72 | the child under key `v` is the tree built from the rows whose split feature is `v`, with that feature removed |
| `Id3Algo.BuildFits` | src/id3/id3_algo.py:56-73 | every built tree fits its rows: leaf labels occur among the rows reaching the leaf, child keys are exactly the observed values, and no child comes from an empty partition |
| `Id3Algo.BuildDepth` | src/id3/id3_algo.py:64-72 | no root-to-leaf path has more internal nodes than there are candidate features |
| `Id3Algo.BuildNoRepeatedSplit` | src/id3/id3_algo.py:70 | no feature is split on twice along one path |
| `Id3Algo.BuildLeavesFromData` | src/id3/id3_algo.py:57-62 | every leaf label is a target value of the input frame |
| `Id3Algo.Id3` | src/id3/id3_algo.py:64-66 | an internal root splits on a listed feature whose information gain no other listed feature exceeds |
| `TreeDict.FromDict` | src/id3/id3_algo.py:24-27 | the intended reader: no tree from a dict missing `value` or `children`; a tree read back has the dict's string `value` and exactly its child keys, each child read from its entry (`FromDictShape`) |
| `TreeDict.ToDict` | src/id3/id3_algo.py:17-22 | `to_dict` writes exactly the keys `value` and `children`, the value as a string, and one entry per child key |
| `TreeDict.RoundTrip` | src/id3/id3_algo.py:17-27 | reading back what `to_dict` writes gives the same tree, at every depth |
| `TreeDict.CanonicalReads` | src/id3/id3_algo.py:24-27 | every dict of the shape `to_dict` writes (the two keys, a string value, children of the same shape) reads back as a tree |
| `TreeDict.ReadThenWrite` | src/id3/id3_algo.py:17-27 | every dict of the shape `to_dict` writes reads as a tree, and is exactly what `to_dict` writes for that tree |
| `TreeDict.FromDictAsWritten` | src/id3/id3_algo.py:24-27 | as written, the receiver's `value` is overwritten exactly when the argument is an object with a `value`, whatever happens next; the call returns `None`, after resetting `children`, exactly on an empty `children` object; any non-empty `children` object raises `TypeError` |
| `TreeDict.FromDictAsWrittenLosesTree` | src/id3/id3_algo.py:24-27 | as written, reading a dict written by `to_dict` never yields a tree: the receiver takes the root's value, then a leaf returns `None` with its children reset and anything else raises `TypeError` |
| `TreeDict.FromDictAsWrittenCounterexample` | src/id3/id3_algo.py:24-27 | the one-split tree `color -> {white: cat}` round-trips through the corrected reader but raises `TypeError` as written |
| `ParentTree.NewNode` | src/id3/node.py:4-8 | a new node has its name and parent, no children and no data. No other object changes, and in particular the parent does not list it |
| `ParentTree.AddChild` | src/id3/node.py:13-15 | the child's parent becomes the receiver and the child is appended to the receiver's children. Nothing else changes, so a former parent still lists it |
| `Seqs.FirstIndex` | src/id3/node.py:18 | the position `list.remove` acts on, and by which `unique()` orders its values, holds the element and no earlier position does |
| `Seqs.FirstIndexOfPrefix` | src/id3/id3_helper.py:31 | appending rows does not move the first appearance of a value already present, which is why `unique()` only ever appends new values |
| `ParentTree.RemoveFirst` | src/id3/node.py:18 | `list.remove(x)` cuts out exactly the first occurrence of `x` and removes one copy of it |
| `ParentTree.RemoveChild` | src/id3/node.py:17-18 | `ValueError` (`None`) exactly when the child is not listed. Otherwise only the receiver's children change, and the removed child keeps its parent |
| `ParentTree.GetLevel` | src/id3/node.py:20-26 | `get_level` returns the length of the node's ancestor chain |
| `ParentTree.SubChain` | src/id3/node.py:23-25 | each ancestor's own chain is the rest of the list |
| `ParentTree.ChainUnique` | src/id3/node.py:20-26 | a node has only one ancestor chain, so its level is well defined |
| `ParentTree.ChainAcyclic` | src/id3/node.py:23-25 | a finite ancestor chain has no repeated node and does not contain the node itself |
| `ParentTree.AddChildLevel` | src/id3/node.py:13-26 | after `add_child` the child's level is one more than the receiver's and the receiver's level is unchanged, unless the child is the receiver or one of its ancestors |

## Left out

- The training and inference scripts, `src/cli_utils.py` and `src/observations.py` are not part of this model: they do argument parsing, CSV and JSON file I/O and logging.
- Id3Algo.Build: requires a non-empty frame, because `run_training.py` rejects an empty frame before it calls `id3_algo`. `Grow` covers the empty frame. It also requires (through `Admissible`, as every `HasColumn` precondition of `Table` and `Id3Helper` does) that the target and every feature are columns of the frame: the source raises `KeyError` on a missing column (src/id3/id3_algo.py:57, src/id3/id3_helper.py:8), and its caller's column check is commented out (run_training.py:31-32), so that error path is not modelled.
- The `use_tree` predictor that `run_inference.py` calls is not defined in any of the modelled files and is not part of this model.
- `print`, `__str__` and `__repr__` of both tree classes, `Node.print_tree`, and the `__main__` blocks only print. The `df2` self-test is reflected in `GainOfConstantFeature`.
- Floating point: gains, shares and entropies are exact `real`s, and `math.log` is the parameter `log`. Rounding, `math.log`'s domain errors and NaN are not modelled. The `-math.inf` that `pick_best_feature` starts from is `None` in `PickBestFeatureLoop`, so the first feature is always taken. One consequence is not covered: float `+=` is not associative, and Python randomises the iteration order of a `set` of strings per process, so once a feature has three or more partitions its computed gain can differ in the last place from run to run. Two features whose gains are equal in exact arithmetic can then be ordered either way by the strict `>`, and `pick_best_feature` can pick a different one. `SumReorder`, `GainOverAnyListing` and `FirstMaxUnique` hold only for exact scores.
- Cells and labels are strings. The source's frames may hold numbers (such as `num_legs`), and pandas compares those by value; a frame is modelled after conversion to strings. The node `value` read back from JSON must be a string.
- Missing cells are not modelled: every row carries a string for every column. `pd.read_csv` reads an empty field or a token such as `NA` as NaN. `unique()` lists NaN (src/id3/id3_algo.py:67), but `data[data[f] == nan]` selects no row, because NaN is not equal to itself. So src/id3/id3_algo.py:68-69 recurses on an empty frame. That call returns a childless node named after the first remaining feature, or raises `ValueError` from `idxmax` (src/id3/id3_algo.py:62) when no feature is left. In `information_gain` (src/id3/id3_helper.py:42-48) the NaN partition is empty, so the weights add up to less than 1. Converting the frame with `astype(str)` would instead turn NaN into the string `"nan"`, which equals itself. The three lines below follow from this.
- Id3Algo.BuildFits: "no child comes from an empty partition" holds only for frames without missing cells (see the line above).
- Id3Algo.BuildLeavesFromData: holds only for frames without missing cells. A NaN partition recurses on an empty frame, whose childless node is named after a feature and not after a label.
- Id3Helper.SharesSumToOne: holds only for frames without missing cells. The NaN partition is empty, so with NaN present the weights add up to less than 1.
- Id3Algo.Mode: pandas does not document which of several equally frequent labels `value_counts().idxmax()` returns. The model's contract fixes the label seen first (`IsFirstMax` over `unique()` order); of that, only "an observed label whose count no label exceeds" is what pandas guarantees, and the first-seen tie-break is the model's own choice.
- Sums.SumReorder: the order of a Python `set` is not modelled. Instead every order is shown to give the same exact gain (`GainOverAnyListing`); in floating point it does not (see the line above).
- TreeDict.FromDictAsWritten: the JSON value has strings, numbers (as `real`, so the `int`/`float` distinction and the `NaN`/`Infinity` constants Python's parser accepts are not kept), booleans, `null`, lists and objects. An object is a map, so the last-wins handling of duplicate keys happens before the model sees it. When a call raises before an assignment, the receiver keeps that field's old value, which the outcome does not carry.
- ParentTree.GetLevel: needs a finite ancestor chain as a ghost witness. On a cyclic parent chain `get_level` never returns, and `ChainAcyclic` shows that a chain exists only without a cycle. `while p:` is modelled as `p is not None`, which is the same because `Node` defines neither `__bool__` nor `__len__`.
- ParentTree.RemoveChild: `list.remove` compares with `==`, which for `Node` (no `__eq__`) is identity, modelled by comparing ids.
- `Node.data` is never assigned in the module and stays `None`.
- Id3Algo.Id3: its own contract speaks of the root split only. The properties of the whole tree are the `Build*` lemmas, which hold for any gain and so for this one.

## Findings

| source | as written | input that shows it | evidently intended | confidence | as-written member | corrected member |
|---|---|---|---|---|---|---|
| src/id3/id3_algo.py:24-27 | `from_dict` is an instance method that assigns to `self` and returns `None`. Its inner call `DecisionTreeNode.from_dict(value)` passes the child dict as `self` and no `json`, so it raises `TypeError` for any non-empty `children`. `run_inference.py:36` calls it on the class with one argument, which raises `TypeError` for every input | the dict `to_dict` writes for the tree `color -> {white: cat}` | a reader that rebuilds the tree `to_dict` wrote (a class-level constructor returning the node) | high, not executed | `TreeDict.FromDictAsWrittenLosesTree` | `TreeDict.RoundTrip` (of `TreeDict.FromDict`) |
| src/id3/id3_helper.py:22-23 | `plogp` returns 1 for a one-row frame whose row matches, because `math.log(1, 1)` is undefined. Entropy of a one-row frame is then -1, and every one-row partition raises a feature's information gain | the frame with the single row `{"Name": "cat"}`: `entropy(df, "Name")` is -1 | `p log p` is 0 at `p = 1`, so `plogp` should return 0 there and entropy is never negative | medium, not executed | `Id3Helper.OneRowEntropyNegative` | `Id3Helper.EntropyNonNegative` (under `OneRow.Corrected`) |

The builder and every lemma about information gain take the one-row rule as a parameter. What is proved for `Build` and `Id3` therefore holds for the code as written and for the correction alike. `GainOfSingletonPartitions` measures the difference: as written, an identifier-like feature gains 1 more than its correct gain, which is the whole entropy of the frame.

=== FILE: argmax.dfy ===
/** The first-wins strict argmax shared by `pick_best_feature` and the choice
    of a most frequent label. */
module ArgMax {
  import opened Maybe

  /** `k` is the position of a largest score, and every earlier position
      scores strictly less, so a tie goes to the earliest position. */
  predicate IsFirstMax<K>(ks: seq<K>, score: K -> real, k: nat)
  {
    && k < |ks|
    && (forall j :: 0 <= j < |ks| ==> score(ks[j]) <= score(ks[k]))
    && (forall j :: 0 <= j < k ==> score(ks[j]) < score(ks[k]))
  }

  /** A left-to-right scan that replaces its candidate only when a later
      element scores strictly more (`if gain > best_gain`). */
  function FirstArgMax<K>(ks: seq<K>, score: K -> real): (r: Option<nat>)
    ensures r.None? <==> |ks| == 0
    ensures r.Some? ==> IsFirstMax(ks, score, r.value)
  {
    if |ks| == 0 then None
    else
      var last := |ks| - 1;
      var p := FirstArgMax(ks[..last], score);
      if p.None? || score(ks[last]) > score(ks[p.value]) then Some(last) else p
  }

  /** The first-wins maximum is unique, so the scan's answer is fully determined
      by the scores. */
  lemma FirstMaxUnique<K>(ks: seq<K>, score: K -> real, k1: nat, k2: nat)
    requires IsFirstMax(ks, score, k1) && IsFirstMax(ks, score, k2)
    ensures k1 == k2
  {
    // each is a maximum, so they score the same; neither can then lie before the other
    assert score(ks[k1]) == score(ks[k2]);
  }
}

=== FILE: id3_algo.dfy ===
/** The ID3 builder `id3_algo` and its tree type `DecisionTreeNode`
    (src/id3/id3_algo.py). The builder is parameterised by the gain function
    that ranks candidate splits; `Id3` instantiates it with information gain. */
module Id3Algo {
  import opened Maybe
  import opened Table
  import opened ArgMax
  import opened Id3Helper

  /** `DecisionTreeNode`: a leaf holds a label and has no children; an internal
      node holds a feature name and one child per observed value of it. */
  datatype Node = Node(value: string, children: map<string, Node>)
  {
    predicate IsLeaf()
    {
      children == map[]
    }
  }

  /** What a call of the builder is given: a non-empty frame (the training
      script rejects an empty one) in which the target and every candidate
      feature are columns. */
  predicate Admissible(rows: Rows, fs: seq<string>, target: string)
  {
    && |rows| > 0
    && HasColumn(rows, target)
    && forall f :: f in fs ==> HasColumn(rows, f)
  }

  /** Every row carries the same label. */
  predicate OneLabel(rows: Rows, target: string)
    requires |rows| > 0 && HasColumn(rows, target)
  {
    forall i :: 0 <= i < |rows| ==> rows[i][target] == rows[0][target]
  }

  /** `[feature for feature in feature_cols if feature != x]`: every copy of `x` goes. */
  function Without(fs: seq<string>, x: string): (r: seq<string>)
    ensures forall y :: y in r <==> y in fs && y != x
    ensures x in fs ==> |r| < |fs|
    ensures |r| <= |fs|
    ensures x !in fs ==> r == fs
  {
    if |fs| == 0 then []
    else
      assert forall y :: y in fs <==> y == fs[0] || y in fs[1..] by {
        assert fs == [fs[0]] + fs[1..];
      }
      (if fs[0] == x then [] else [fs[0]]) + Without(fs[1..], x)
  }

  /** The comprehension works element by element, so the survivors keep
      their order and their copies: dropping `x` from a concatenation drops it
      from each part. */
  lemma {:induction false} WithoutAppend(a: seq<string>, b: seq<string>, x: string)
    ensures Without(a + b, x) == Without(a, x) + Without(b, x)
  {
    if |a| == 0 {
      assert a + b == b;
    } else {
      assert (a + b)[0] == a[0];
      assert (a + b)[1..] == a[1..] + b;
      WithoutAppend(a[1..], b, x);
    }
  }

  function LabelCount(rows: Rows, target: string): string -> real
    requires HasColumn(rows, target)
  {
    v => Count(rows, target, v) as real
  }

  /** `data[target_col].value_counts().idxmax()`: a label of largest count.
      Equally frequent labels are broken by first appearance in the rows. */
  function Mode(rows: Rows, target: string): (m: string)
    requires |rows| > 0 && HasColumn(rows, target)
    ensures m in Values(rows, target)
    ensures forall v :: Count(rows, target, v) <= Count(rows, target, m)
    ensures exists k: nat :: IsFirstMax(Unique(rows, target), LabelCount(rows, target), k)
                             && Unique(rows, target)[k] == m
  {
    var u, score := Unique(rows, target), LabelCount(rows, target);
    var k := FirstArgMax(u, score).value;
    assert forall v :: Count(rows, target, v) <= Count(rows, target, u[k]) by {
      forall v ensures Count(rows, target, v) <= Count(rows, target, u[k]) {
        if v in Values(rows, target) {
          var j :| 0 <= j < |u| && u[j] == v;
          assert score(u[j]) <= score(u[k]);
        }
      }
    }
    u[k]
  }

  /** A tree is consistent with the rows it was built from: every leaf label
      occurs among the rows that reach the leaf, and every internal node has
      one child per value its feature takes on those rows, each child fitting
      the non-empty partition that carries its key. */
  ghost predicate Fits(t: Node, rows: Rows, target: string)
    requires HasColumn(rows, target)
    decreases t
  {
    if t.IsLeaf() then t.value in Values(rows, target)
    else
      && HasColumn(rows, t.value)
      && t.children.Keys == Values(rows, t.value)
      && forall k :: k in t.children ==>
           |Filter(rows, t.value, k)| > 0 && Fits(t.children[k], Filter(rows, t.value, k), target)
  }

  /** Every internal node names a feature of `avail` that no ancestor names. */
  ghost predicate FeaturesOnPaths(t: Node, avail: set<string>)
    decreases t
  {
    !t.IsLeaf() ==>
      && t.value in avail
      && forall k :: k in t.children ==> FeaturesOnPaths(t.children[k], avail - {t.value})
  }

  /** No root-to-leaf path passes more than `d` internal nodes. */
  ghost predicate DepthAtMost(t: Node, d: nat)
    decreases t
  {
    !t.IsLeaf() ==> d > 0 && forall k :: k in t.children ==> DepthAtMost(t.children[k], d - 1)
  }

  /** Every leaf label lies in `labels`. */
  ghost predicate LeavesIn(t: Node, labels: set<string>)
    decreases t
  {
    if t.IsLeaf() then t.value in labels
    else forall k :: k in t.children ==> LeavesIn(t.children[k], labels)
  }

  /** Some internal node of `t` splits on `f`. */
  ghost predicate SplitsOn(t: Node, f: string)
    decreases t
  {
    !t.IsLeaf() && (t.value == f || exists k :: k in t.children && SplitsOn(t.children[k], f))
  }

  /** No feature names two internal nodes on one root-to-leaf path. */
  ghost predicate NoRepeatedSplit(t: Node)
    decreases t
  {
    !t.IsLeaf() ==>
      forall k :: k in t.children ==> !SplitsOn(t.children[k], t.value) && NoRepeatedSplit(t.children[k])
  }

  /** Every partition by an observed value of a candidate feature is a valid
      input for the recursive call, with one candidate fewer. */
  lemma ChildrenAdmissible(rows: Rows, fs: seq<string>, target: string, best: string)
    requires Admissible(rows, fs, target) && best in fs
    ensures |Without(fs, best)| < |fs|
    ensures forall v :: v in Unique(rows, best) ==> Admissible(Filter(rows, best, v), Without(fs, best), target)
  {
    forall v | v in Unique(rows, best) ensures Admissible(Filter(rows, best, v), Without(fs, best), target) {
      assert |Filter(rows, best, v)| > 0;
    }
  }

  /** `id3_algo(data, feature_cols, target_col)` with the split chosen by
      `pick_best_feature` under `gain`. */
  function Build(rows: Rows, fs: seq<string>, target: string, gain: Gain): (t: Node)
    requires Admissible(rows, fs, target)
    ensures t.IsLeaf() <==> OneLabel(rows, target) || |fs| == 0
    ensures OneLabel(rows, target) ==> forall i :: 0 <= i < |rows| ==> rows[i][target] == t.value
    ensures !OneLabel(rows, target) && |fs| == 0 ==>
              t.value in Values(rows, target) && forall v :: Count(rows, target, v) <= Count(rows, target, t.value)
    ensures !t.IsLeaf() ==>
              && PickBestFeature(rows, target, fs, gain) == Some(t.value)
              && t.value in fs
              && t.children.Keys == Values(rows, t.value)
    decreases |fs|, 1
  {
    OneUniqueValue(rows, target);
    if |Unique(rows, target)| == 1 then
      Node(Unique(rows, target)[0], map[])
    else if |fs| == 0 then
      Node(Mode(rows, target), map[])
    else
      var best := PickBestFeature(rows, target, fs, gain).value;
      assert rows[0][best] in Values(rows, best);
      Node(best, Children(rows, fs, target, gain, best))
  }

  /** The loop over `data[best].unique()`: one subtree per observed value of
      `best`, built from the rows carrying that value without `best`. */
  function Children(rows: Rows, fs: seq<string>, target: string, gain: Gain, best: string): (cs: map<string, Node>)
    requires Admissible(rows, fs, target) && best in fs
    ensures cs.Keys == Values(rows, best)
    ensures forall v :: v in cs ==> Admissible(Filter(rows, best, v), Without(fs, best), target)
    decreases |fs|, 0
  {
    var u := Unique(rows, best);
    ChildrenAdmissible(rows, fs, target, best);
    map v | v in u :: Build(Filter(rows, best, v), Without(fs, best), target, gain)
  }

  /** `id3_algo` on any frame whose columns include the target and the
      features. On an empty frame `value_counts().idxmax()` raises
      `ValueError` when no feature is left (`None` here); otherwise the loop
      over `unique()` adds no child, so the result is a childless node named
      after the picked feature. */
  function Grow(rows: Rows, fs: seq<string>, target: string, gain: Gain): (r: Option<Node>)
    requires HasColumn(rows, target) && forall f :: f in fs ==> HasColumn(rows, f)
    ensures r.None? <==> |rows| == 0 && |fs| == 0
    ensures |rows| > 0 ==> r == Some(Build(rows, fs, target, gain))
    ensures |rows| == 0 && r.Some? ==> r.value.IsLeaf() && r.value.value in fs
  {
    if |rows| > 0 then Some(Build(rows, fs, target, gain))
    else if |fs| == 0 then None
    else Some(Node(PickBestFeature(rows, target, fs, gain).value, map[]))
  }

  /** Each child of an internal node is built from the rows carrying its key,
      with the node's feature removed from the candidates. */
  lemma BuildChild(rows: Rows, fs: seq<string>, target: string, gain: Gain, k: string)
    requires Admissible(rows, fs, target)
    ensures var t := Build(rows, fs, target, gain);
            k in t.children ==>
              && HasColumn(rows, t.value)
              && Admissible(Filter(rows, t.value, k), Without(fs, t.value), target)
              && t.children[k] == Build(Filter(rows, t.value, k), Without(fs, t.value), target, gain)
  {
    OneUniqueValue(rows, target);
  }

  /** Every tree the builder returns fits the rows it was built from: leaf
      labels come from the rows reaching them, child keys are exactly the
      observed values, and no child is built from an empty partition. */
  lemma {:induction false} BuildFits(rows: Rows, fs: seq<string>, target: string, gain: Gain)
    requires Admissible(rows, fs, target)
    ensures Fits(Build(rows, fs, target, gain), rows, target)
    decreases |fs|
  {
    var t := Build(rows, fs, target, gain);
    if t.IsLeaf() {
      assert rows[0][target] in Values(rows, target);
    } else {
      forall k | k in t.children
        ensures |Filter(rows, t.value, k)| > 0 && Fits(t.children[k], Filter(rows, t.value, k), target)
      {
        BuildChild(rows, fs, target, gain, k);
        BuildFits(Filter(rows, t.value, k), Without(fs, t.value), target, gain);
      }
    }
  }

  /** Along every path of a built tree, the internal nodes name distinct
      features of `feature_cols`: each call drops the chosen feature. */
  lemma {:induction false} BuildFeaturesOnPaths(rows: Rows, fs: seq<string>, target: string, gain: Gain)
    requires Admissible(rows, fs, target)
    ensures FeaturesOnPaths(Build(rows, fs, target, gain), set f | f in fs)
    decreases |fs|
  {
    var t := Build(rows, fs, target, gain);
    if !t.IsLeaf() {
      var rest := Without(fs, t.value);
      WithoutSet(fs, t.value);
      forall k | k in t.children
        ensures FeaturesOnPaths(t.children[k], (set f | f in fs) - {t.value})
      {
        BuildChild(rows, fs, target, gain, k);
        BuildFeaturesOnPaths(Filter(rows, t.value, k), rest, target, gain);
      }
    }
  }

  lemma WithoutSet(fs: seq<string>, x: string)
    ensures (set f | f in Without(fs, x)) == (set f | f in fs) - {x}
  {
  }

  /** Drawing the internal nodes of each path from `avail` without repetition
      bounds the depth by the size of `avail`. */
  lemma {:induction false} FeaturesBoundDepth(t: Node, avail: set<string>, d: nat)
    requires FeaturesOnPaths(t, avail) && |avail| <= d
    ensures DepthAtMost(t, d)
    decreases t
  {
    if !t.IsLeaf() {
      var rest := avail - {t.value};
      assert avail == rest + {t.value};
      forall k | k in t.children ensures DepthAtMost(t.children[k], d - 1) {
        FeaturesBoundDepth(t.children[k], rest, d - 1);
      }
    }
  }

  lemma {:induction false} SeqSetSize(fs: seq<string>)
    ensures |set f | f in fs| <= |fs|
  {
    if |fs| > 0 {
      SeqSetSize(fs[1..]);
      assert (set f | f in fs) == {fs[0]} + (set f | f in fs[1..]) by {
        assert fs == [fs[0]] + fs[1..];
      }
    }
  }

  /** The depth of a built tree is at most the number of candidate features. */
  lemma BuildDepth(rows: Rows, fs: seq<string>, target: string, gain: Gain)
    requires Admissible(rows, fs, target)
    ensures DepthAtMost(Build(rows, fs, target, gain), |fs|)
  {
    BuildFeaturesOnPaths(rows, fs, target, gain);
    SeqSetSize(fs);
    FeaturesBoundDepth(Build(rows, fs, target, gain), set f | f in fs, |fs|);
  }

  /** A feature some internal node splits on is one of the available ones. */
  lemma {:induction false} SplitsOnAvailable(t: Node, avail: set<string>, f: string)
    requires FeaturesOnPaths(t, avail)
    ensures SplitsOn(t, f) ==> f in avail
    decreases t
  {
    if !t.IsLeaf() && t.value != f {
      forall k | k in t.children ensures SplitsOn(t.children[k], f) ==> f in avail {
        SplitsOnAvailable(t.children[k], avail - {t.value}, f);
      }
    }
  }

  lemma {:induction false} FeaturesOnPathsNoRepeat(t: Node, avail: set<string>)
    requires FeaturesOnPaths(t, avail)
    ensures NoRepeatedSplit(t)
    decreases t
  {
    if !t.IsLeaf() {
      forall k | k in t.children
        ensures !SplitsOn(t.children[k], t.value) && NoRepeatedSplit(t.children[k])
      {
        SplitsOnAvailable(t.children[k], avail - {t.value}, t.value);
        FeaturesOnPathsNoRepeat(t.children[k], avail - {t.value});
      }
    }
  }

  /** No feature names two internal nodes on one root-to-leaf path of a built tree. */
  lemma BuildNoRepeatedSplit(rows: Rows, fs: seq<string>, target: string, gain: Gain)
    requires Admissible(rows, fs, target)
    ensures NoRepeatedSplit(Build(rows, fs, target, gain))
  {
    BuildFeaturesOnPaths(rows, fs, target, gain);
    FeaturesOnPathsNoRepeat(Build(rows, fs, target, gain), set f | f in fs);
  }

  lemma {:induction false} FitsLeavesIn(t: Node, rows: Rows, target: string, labels: set<string>)
    requires HasColumn(rows, target) && Fits(t, rows, target)
    requires Values(rows, target) <= labels
    ensures LeavesIn(t, labels)
    decreases t
  {
    if !t.IsLeaf() {
      forall k | k in t.children ensures LeavesIn(t.children[k], labels) {
        ValuesOfFilter(rows, t.value, k, target);
        FitsLeavesIn(t.children[k], Filter(rows, t.value, k), target, labels);
      }
    }
  }

  /** Every leaf label of a built tree is a target value occurring in the input rows. */
  lemma BuildLeavesFromData(rows: Rows, fs: seq<string>, target: string, gain: Gain)
    requires Admissible(rows, fs, target)
    ensures LeavesIn(Build(rows, fs, target, gain), Values(rows, target))
  {
    BuildFits(rows, fs, target, gain);
    FitsLeavesIn(Build(rows, fs, target, gain), rows, target, Values(rows, target));
  }

  /** The gain `pick_best_feature` actually ranks by: information gain under
      `log`, with `rule` fixing what `plogp` gives a one-row frame (`AsWritten`
      is the source's behaviour). */
  function InformationGainOf(log: Log, rule: OneRow): Gain
  {
    (rows, target, f) =>
      if HasColumn(rows, target) && HasColumn(rows, f) then InformationGain(rows, target, f, log, rule) else 0.0
  }

  /** `id3_algo` as the training script calls it: an internal root splits on a
      feature of largest information gain. Everything proved about `Build`
      holds for it, whatever `log` and `rule` are. */
  function Id3(rows: Rows, fs: seq<string>, target: string, log: Log, rule: OneRow): (t: Node)
    requires Admissible(rows, fs, target)
    ensures !t.IsLeaf() ==> t.value in fs && forall f :: f in fs ==>
              InformationGain(rows, target, f, log, rule) <= InformationGain(rows, target, t.value, log, rule)
  {
    var t := Build(rows, fs, target, InformationGainOf(log, rule));
    assert !t.IsLeaf() ==> forall f :: f in fs ==>
              InformationGainOf(log, rule)(rows, target, f) <= InformationGainOf(log, rule)(rows, target, t.value);
    t
  }

  /** With information gain every feature scores 0 on an empty frame, so the
      builder returns a childless node named after the first listed feature:
      a leaf whose label is a feature name rather than a target value. */
  lemma GrowOnEmptyFrame(fs: seq<string>, target: string, log: Log, rule: OneRow)
    requires |fs| > 0
    ensures Grow([], fs, target, InformationGainOf(log, rule)) == Some(Node(fs[0], map[]))
  {
    var g := GainOf([], target, InformationGainOf(log, rule));
    forall f ensures g(f) == 0.0 {
      GainOfEmpty([], target, f, log, rule);
    }
    var best := PickBestFeature([], target, fs, InformationGainOf(log, rule)).value;
    var k: nat :| IsFirstMax(fs, g, k) && fs[k] == best;
    assert IsFirstMax(fs, g, 0);
    FirstMaxUnique(fs, g, k, 0);
  }
}

=== FILE: id3_helper.dfy ===
/** Split selection for ID3 (src/id3/id3_helper.py): `plogp`, `entropy`,
    `information_gain` and `pick_best_feature`. Gains are `real`s; the
    logarithm is a parameter, so the control flow and the partition arithmetic
    are modelled exactly while the floating-point numerics are not. The value
    `plogp` gives a one-row frame is a parameter too (`OneRow`), so that the
    source's choice and its correction can be compared. */
module Id3Helper {
  import opened Maybe
  import opened Seqs
  import opened Table
  import opened Sums
  import opened ArgMax

  /** `math.log(x, base)`, supplied by the caller and otherwise unconstrained. */
  type Log = (real, nat) -> real

  /** log_b(1) = 0 for b > 1. */
  ghost predicate LogOfOneIsZero(log: Log)
  {
    forall b: nat :: 1 < b ==> log(1.0, b) == 0.0
  }

  /** log_b(p) <= 0 for 0 < p <= 1 and b > 1. */
  ghost predicate LogNonPositiveBelowOne(log: Log)
  {
    forall p: real, b: nat :: 0.0 < p <= 1.0 && 1 < b ==> log(p, b) <= 0.0
  }

  /** What `plogp` returns for a one-row frame whose row matches, where the
      base `len(df)` is 1 and `math.log(1, 1)` is undefined: the source returns
      1 (`AsWritten`), while p log p is 0 at p = 1 (`Corrected`). */
  datatype OneRow = AsWritten | Corrected
  {
    function Value(): real
    {
      if AsWritten? then 1.0 else 0.0
    }
  }

  /** The share of the rows whose `col` equals `v`: `prob` in `plogp` and the
      partition weight in `information_gain`. */
  function Share(rows: Rows, col: string, v: string): (p: real)
    requires HasColumn(rows, col) && |rows| > 0
    ensures 0.0 <= p <= 1.0
    ensures p > 0.0 <==> v in Values(rows, col)
    ensures p == 1.0 <==> forall i :: 0 <= i < |rows| ==> rows[i][col] == v
  {
    Fraction(Count(rows, col, v), |rows|);
    Count(rows, col, v) as real / |rows| as real
  }

  lemma Fraction(c: nat, n: nat)
    requires 0 < n && c <= n
    ensures 0.0 <= c as real / n as real <= 1.0
    ensures c as real / n as real > 0.0 <==> c > 0
    ensures c as real / n as real == 1.0 <==> c == n
  {
    var q := c as real / n as real;
    assert q * n as real == c as real;
  }

  lemma AddFractions(a: real, b: real, c: real, n: real)
    requires n > 0.0 && c == a + b
    ensures a / n + b / n == c / n
  {
  }

  /** `plogp(df, target_col, target_value)`. */
  function Plogp(rows: Rows, target: string, value: string, log: Log, rule: OneRow): (r: real)
    requires HasColumn(rows, target)
    ensures value !in Values(rows, target) ==> r == 0.0
    ensures |rows| == 1 && value in Values(rows, target) ==> r == rule.Value()
    ensures (|rows| > 1 && value in Values(rows, target))
      ==> r == Share(rows, target, value) * log(Share(rows, target, value), |rows|)
  {
    var matching := Count(rows, target, value);
    if matching == 0 then 0.0
    else if |rows| == 0 then 0.0
    else
      var prob := matching as real / |rows| as real;
      if prob == 0.0 then 0.0
      else if prob == 1.0 && |rows| == 1 then rule.Value()
      else prob * log(prob, |rows|)
  }

  /** Once some row matches, the dataset is non-empty and `prob` lies in (0, 1],
      so the `df.shape[0] == 0` and `prob == 0` guards of `plogp` never decide. */
  lemma PlogpGuardsNeverDecide(rows: Rows, target: string, value: string)
    requires HasColumn(rows, target)
    requires Count(rows, target, value) > 0
    ensures |rows| > 0
    ensures 0.0 < Share(rows, target, value) <= 1.0
  {
  }

  function PlogpOf(rows: Rows, target: string, log: Log, rule: OneRow): string -> real
    requires HasColumn(rows, target)
  {
    v => Plogp(rows, target, v, log, rule)
  }

  /** `entropy(df, target_col)`: minus the sum of `plogp` over the distinct labels. */
  function Entropy(rows: Rows, target: string, log: Log, rule: OneRow): (e: real)
    requires HasColumn(rows, target)
    ensures |rows| == 0 ==> e == 0.0
  {
    -Sum(Unique(rows, target), PlogpOf(rows, target, log, rule))
  }

  /** Each distinct label contributes exactly once, in whatever order the
      labels are listed. */
  lemma EntropyOverAnyListing(rows: Rows, target: string, log: Log, rule: OneRow, labels: seq<string>)
    requires HasColumn(rows, target)
    requires NoDup(labels)
    requires forall x :: x in labels <==> x in Values(rows, target)
    ensures Entropy(rows, target, log, rule) == -Sum(labels, PlogpOf(rows, target, log, rule))
  {
    SumReorder(Unique(rows, target), labels, PlogpOf(rows, target, log, rule));
  }

  lemma EntropyOfEmpty(rows: Rows, target: string, log: Log, rule: OneRow)
    requires |rows| == 0
    ensures Entropy(rows, target, log, rule) == 0.0
  {
  }

  /** A one-row dataset has entropy minus the one-row value of `plogp`:
      -1 as written. */
  lemma EntropyOfOneRow(rows: Rows, target: string, log: Log, rule: OneRow)
    requires |rows| == 1 && HasColumn(rows, target)
    ensures Entropy(rows, target, log, rule) == -rule.Value()
  {
    var lbl := rows[0][target];
    UniqueOfConstant(rows, target);
    assert lbl in Values(rows, target);
    var f := PlogpOf(rows, target, log, rule);
    assert f(lbl) == rule.Value();
    assert Sum([lbl], f) == f(lbl) + Sum([], f);
  }

  /** A larger dataset with a single label has entropy 0, given log_b(1) = 0. */
  lemma EntropyOfOneLabel(rows: Rows, target: string, log: Log, rule: OneRow)
    requires |rows| > 1 && HasColumn(rows, target)
    requires forall i :: 0 <= i < |rows| ==> rows[i][target] == rows[0][target]
    requires LogOfOneIsZero(log)
    ensures Entropy(rows, target, log, rule) == 0.0
  {
    var lbl := rows[0][target];
    UniqueOfConstant(rows, target);
    assert lbl in Values(rows, target);
    assert Share(rows, target, lbl) == 1.0;
    assert log(1.0, |rows|) == 0.0;
    var f := PlogpOf(rows, target, log, rule);
    assert f(lbl) == 0.0;
    assert Sum([lbl], f) == f(lbl) + Sum([], f);
  }

  /** As written, a one-row frame has entropy -1 whatever its label; with the
      one-row case corrected it has entropy 0. */
  lemma OneRowEntropyNegative(log: Log)
    ensures Entropy([map["Name" := "cat"]], "Name", log, AsWritten) == -1.0
    ensures Entropy([map["Name" := "cat"]], "Name", log, Corrected) == 0.0
  {
    EntropyOfOneRow([map["Name" := "cat"]], "Name", log, AsWritten);
    EntropyOfOneRow([map["Name" := "cat"]], "Name", log, Corrected);
  }

  lemma NonPositiveProduct(p: real, l: real)
    requires p >= 0.0 && l <= 0.0
    ensures p * l <= 0.0
  {
  }

  /** With the one-row case corrected, no term of the entropy sum is positive. */
  lemma PlogpNonPositive(rows: Rows, target: string, value: string, log: Log)
    requires HasColumn(rows, target) && LogNonPositiveBelowOne(log)
    ensures Plogp(rows, target, value, log, Corrected) <= 0.0
  {
    if value in Values(rows, target) && |rows| > 1 {
      var p := Share(rows, target, value);
      NonPositiveProduct(p, log(p, |rows|));
    }
  }

  /** With the one-row case corrected, entropy is never negative. */
  lemma EntropyNonNegative(rows: Rows, target: string, log: Log)
    requires HasColumn(rows, target) && LogNonPositiveBelowOne(log)
    ensures Entropy(rows, target, log, Corrected) >= 0.0
  {
    var f := PlogpOf(rows, target, log, Corrected);
    forall v | v in Unique(rows, target) ensures f(v) <= 0.0 {
      PlogpNonPositive(rows, target, v, log);
    }
    SumNonPositive(Unique(rows, target), f);
  }

  /** The term `information_gain` adds for the partition where `feature == v`;
      the loop skips it (`continue`) when the dataset is empty. */
  function SplitTerm(rows: Rows, target: string, feature: string, log: Log, rule: OneRow, v: string): real
    requires HasColumn(rows, target) && HasColumn(rows, feature)
  {
    if |rows| == 0 then 0.0
    else Times(Share(rows, feature, v), Entropy(Filter(rows, feature, v), target, log, rule))
  }

  function SplitTermOf(rows: Rows, target: string, feature: string, log: Log, rule: OneRow): string -> real
    requires HasColumn(rows, target) && HasColumn(rows, feature)
  {
    v => SplitTerm(rows, target, feature, log, rule, v)
  }

  /** `information_gain(obs_df, target_col, feature_col)`: the entropy of the
      rows minus the share-weighted entropies of their partitions by distinct
      value of `feature`. */
  function InformationGain(rows: Rows, target: string, feature: string, log: Log, rule: OneRow): (g: real)
    requires HasColumn(rows, target) && HasColumn(rows, feature)
    ensures |rows| == 0 ==> g == 0.0
  {
    Entropy(rows, target, log, rule) - Sum(Unique(rows, feature), SplitTermOf(rows, target, feature, log, rule))
  }

  /** The source iterates the partitions in `set` order; any listing of the
      distinct feature values gives the same gain. */
  lemma GainOverAnyListing(rows: Rows, target: string, feature: string, log: Log, rule: OneRow, vs: seq<string>)
    requires HasColumn(rows, target) && HasColumn(rows, feature)
    requires NoDup(vs)
    requires forall x :: x in vs <==> x in Values(rows, feature)
    ensures InformationGain(rows, target, feature, log, rule)
         == Entropy(rows, target, log, rule) - Sum(vs, SplitTermOf(rows, target, feature, log, rule))
  {
    SumReorder(Unique(rows, feature), vs, SplitTermOf(rows, target, feature, log, rule));
  }

  function ShareOf(rows: Rows, col: string): string -> real
    requires HasColumn(rows, col) && |rows| > 0
  {
    v => Share(rows, col, v)
  }

  lemma {:induction false} SharesArePartSizes(rows: Rows, col: string, vs: seq<string>)
    requires HasColumn(rows, col) && |rows| > 0
    ensures Sum(vs, ShareOf(rows, col)) == PartSizes(rows, col, vs) as real / |rows| as real
  {
    if |vs| > 0 {
      SharesArePartSizes(rows, col, vs[1..]);
      SharesStep(rows, col, vs);
    }
  }

  lemma SharesStep(rows: Rows, col: string, vs: seq<string>)
    requires HasColumn(rows, col) && |rows| > 0 && |vs| > 0
    requires Sum(vs[1..], ShareOf(rows, col)) == PartSizes(rows, col, vs[1..]) as real / |rows| as real
    ensures Sum(vs, ShareOf(rows, col)) == PartSizes(rows, col, vs) as real / |rows| as real
  {
    var f, n := ShareOf(rows, col), |rows| as real;
    var a, b := Count(rows, col, vs[0]) as real, PartSizes(rows, col, vs[1..]) as real;
    assert f(vs[0]) == a / n;
    var c := PartSizes(rows, col, vs) as real;
    assert Sum(vs, f) == a / n + b / n;
    assert c == a + b;
    AddFractions(a, b, c, n);
  }

  /** The term of one partition, from its weight and its entropy. */
  lemma SplitTermValue(rows: Rows, target: string, feature: string, log: Log, rule: OneRow, v: string, p: real, e: real)
    requires HasColumn(rows, target) && HasColumn(rows, feature) && |rows| > 0
    requires p == Share(rows, feature, v) && e == Entropy(Filter(rows, feature, v), target, log, rule)
    ensures SplitTerm(rows, target, feature, log, rule, v) == Times(p, e)
  {
  }

  /** The partition weights of `information_gain` add up to 1. */
  lemma SharesSumToOne(rows: Rows, col: string)
    requires HasColumn(rows, col) && |rows| > 0
    ensures Sum(Unique(rows, col), ShareOf(rows, col)) == 1.0
  {
    PartitionByUnique(rows, col);
    SharesArePartSizes(rows, col, Unique(rows, col));
    Fraction(|rows|, |rows|);
  }

  /** A feature that takes one value on every row gains nothing: its one
      partition is the whole dataset, with weight 1. */
  lemma GainOfConstantFeature(rows: Rows, target: string, feature: string, log: Log, rule: OneRow)
    requires HasColumn(rows, target) && HasColumn(rows, feature)
    requires |Unique(rows, feature)| == 1
    ensures InformationGain(rows, target, feature, log, rule) == 0.0
  {
    var u := Unique(rows, feature);
    SingleValueColumn(rows, feature);
    var v := u[0];
    var g := SplitTermOf(rows, target, feature, log, rule);
    var e := Entropy(rows, target, log, rule);
    assert Share(rows, feature, v) == 1.0;
    SplitTermValue(rows, target, feature, log, rule, v, 1.0, e);
    assert Times(1.0, e) == e;
    assert g(v) == SplitTerm(rows, target, feature, log, rule, v);
    assert Sum(u, g) == g(v) + Sum([], g);
  }

  lemma GainOfEmpty(rows: Rows, target: string, feature: string, log: Log, rule: OneRow)
    requires |rows| == 0
    ensures InformationGain(rows, target, feature, log, rule) == 0.0
  {
  }

  /** The gain function a split is chosen by; the source's choice is `InformationGain`. */
  type Gain = (Rows, string, string) -> real

  function GainOf(rows: Rows, target: string, gain: Gain): string -> real
  {
    f => gain(rows, target, f)
  }

  /** `pick_best_feature(df, target_col, feature_cols)`: `None` for no features,
      otherwise the first listed feature of largest gain. */
  function PickBestFeature(rows: Rows, target: string, fs: seq<string>, gain: Gain): (best: Option<string>)
    ensures best.None? <==> |fs| == 0
    ensures best.Some? ==> best.value in fs
    ensures best.Some? ==> forall f :: f in fs ==> gain(rows, target, f) <= gain(rows, target, best.value)
    ensures best.Some? ==> exists k: nat :: IsFirstMax(fs, GainOf(rows, target, gain), k) && fs[k] == best.value
  {
    match FirstArgMax(fs, GainOf(rows, target, gain))
    case None => None
    case Some(k) =>
      assert fs[k] in fs;
      assert forall f :: f in fs ==> gain(rows, target, f) <= gain(rows, target, fs[k]) by {
        forall f | f in fs ensures gain(rows, target, f) <= gain(rows, target, fs[k]) {
          var j :| 0 <= j < |fs| && fs[j] == f;
          assert GainOf(rows, target, gain)(fs[j]) <= GainOf(rows, target, gain)(fs[k]);
        }
      }
      Some(fs[k])
  }

  /** The source's loop: `best_gain` starts at minus infinity (here `None`) and
      is replaced only by a strictly larger gain. */
  method PickBestFeatureLoop(rows: Rows, target: string, fs: seq<string>, gain: Gain)
    returns (best: Option<string>)
    ensures best == PickBestFeature(rows, target, fs, gain)
  {
    best := None;
    var bestGain: Option<real> := None;
    ghost var k: Option<nat> := None;
    ghost var score := GainOf(rows, target, gain);
    for i := 0 to |fs|
      invariant k == FirstArgMax(fs[..i], score)
      invariant k.Some? ==> k.value < i
      invariant best == (if k.None? then None else Some(fs[k.value]))
      invariant bestGain == (if k.None? then None else Some(gain(rows, target, fs[k.value])))
    {
      var g := gain(rows, target, fs[i]);
      assert fs[..i + 1][..i] == fs[..i];
      if bestGain.None? || g > bestGain.value {
        bestGain := Some(g);
        best := Some(fs[i]);
        k := Some(i);
      }
    }
    assert fs[..|fs|] == fs;
  }

  /** The weighted entropy of a one-row partition. */
  lemma SingletonSplit(rows: Rows, target: string, feature: string, log: Log, rule: OneRow, v: string)
    requires HasColumn(rows, target) && HasColumn(rows, feature) && |rows| > 0
    requires Count(rows, feature, v) == 1
    ensures SplitTerm(rows, target, feature, log, rule, v) == Times(Share(rows, feature, v), -rule.Value())
  {
    EntropyOfOneRow(Filter(rows, feature, v), target, log, rule);
    SplitTermValue(rows, target, feature, log, rule, v, Share(rows, feature, v), -rule.Value());
  }

  lemma SingletonTerm(rows: Rows, target: string, feature: string, log: Log, rule: OneRow, v: string, c: real)
    requires HasColumn(rows, target) && HasColumn(rows, feature) && |rows| > 0
    requires Count(rows, feature, v) == 1 && c == -rule.Value()
    ensures SplitTermOf(rows, target, feature, log, rule)(v) == Times(ShareOf(rows, feature)(v), c)
  {
    SingletonSplit(rows, target, feature, log, rule, v);
    var p := Share(rows, feature, v);
    assert SplitTermOf(rows, target, feature, log, rule)(v) == SplitTerm(rows, target, feature, log, rule, v);
    assert ShareOf(rows, feature)(v) == p;
  }

  lemma ScaledShares(u: seq<string>, g: string -> real, share: string -> real, c: real)
    requires forall v :: v in u ==> g(v) == Times(share(v), c)
    requires Sum(u, share) == 1.0
    ensures Sum(u, g) == c
  {
    SumScaled(u, g, share, c);
    assert Times(1.0, c) == c;
  }

  lemma SingletonTermsEach(rows: Rows, target: string, feature: string, log: Log, rule: OneRow, c: real)
    requires HasColumn(rows, target) && HasColumn(rows, feature) && |rows| > 0
    requires forall v :: v in Values(rows, feature) ==> Count(rows, feature, v) == 1
    requires c == -rule.Value()
    ensures forall v :: v in Unique(rows, feature) ==>
              SplitTermOf(rows, target, feature, log, rule)(v) == Times(ShareOf(rows, feature)(v), c)
  {
    forall v | v in Unique(rows, feature)
      ensures SplitTermOf(rows, target, feature, log, rule)(v) == Times(ShareOf(rows, feature)(v), c)
    {
      SingletonTerm(rows, target, feature, log, rule, v, c);
    }
  }

  /** The weighted entropies of one-row partitions add up to minus the
      one-row value of `plogp`. */
  lemma SingletonTerms(rows: Rows, target: string, feature: string, log: Log, rule: OneRow)
    requires HasColumn(rows, target) && HasColumn(rows, feature) && |rows| > 0
    requires forall v :: v in Values(rows, feature) ==> Count(rows, feature, v) == 1
    ensures Sum(Unique(rows, feature), SplitTermOf(rows, target, feature, log, rule)) == -rule.Value()
  {
    var c := if rule.AsWritten? then -1.0 else 0.0;
    SingletonTermsEach(rows, target, feature, log, rule, c);
    SharesSumToOne(rows, feature);
    ScaledShares(Unique(rows, feature), SplitTermOf(rows, target, feature, log, rule), ShareOf(rows, feature), c);
  }

  /** A feature that puts every row in a partition of its own (an identifier
      column) gains the whole entropy plus the one-row value of `plogp`: as
      written it gains 1 more than a perfect split can under the correction. */
  lemma GainOfSingletonPartitions(rows: Rows, target: string, feature: string, log: Log, rule: OneRow)
    requires HasColumn(rows, target) && HasColumn(rows, feature) && |rows| > 0
    requires forall v :: v in Values(rows, feature) ==> Count(rows, feature, v) == 1
    ensures InformationGain(rows, target, feature, log, rule) == Entropy(rows, target, log, rule) + rule.Value()
  {
    SingletonTerms(rows, target, feature, log, rule);
  }
}

=== FILE: maybe.dfy ===
/** The optional value used wherever the source returns `None` or fails. */
module Maybe {

  datatype Option<+T> = None | Some(value: T)
}

=== FILE: parent_tree.dfy ===
/** The generic parent-linked tree of src/id3/node.py. Python objects are
    modelled by a heap: a map from object identity to the fields of the
    object, so each method becomes a function from heap to heap. */
module ParentTree {
  import opened Maybe
  import opened Seqs

  type Id = nat

  /** The fields of one `Node` object. */
  datatype Rec = Rec(name: string, parent: Option<Id>, children: seq<Id>, data: Option<string>)

  type Heap = map<Id, Rec>

  /** `Node(name, parent)`: a fresh object with no children and `data` None.
      The parent's own `children` list is left alone. */
  function NewNode(h: Heap, id: Id, name: string, parent: Option<Id>): (h': Heap)
    requires id !in h
    ensures h'.Keys == h.Keys + {id}
    ensures h'[id] == Rec(name, parent, [], None)
    ensures forall x :: x in h ==> h'[x] == h[x]
  {
    h[id := Rec(name, parent, [], None)]
  }

  /** `add_child`: the child's `parent` becomes the receiver and the child is
      appended to the receiver's `children`. Nothing else changes; in
      particular a previous parent keeps the child in its own list. */
  function AddChild(h: Heap, self: Id, child: Id): (h': Heap)
    requires self in h && child in h
    ensures h'.Keys == h.Keys
    ensures h'[child].parent == Some(self)
    ensures h'[self].children == h[self].children + [child]
    ensures h'[child].name == h[child].name && h'[child].data == h[child].data
    ensures child != self ==> h'[child].children == h[child].children
    ensures child != self ==> h'[self] == h[self].(children := h[self].children + [child])
    ensures forall x :: x in h && x != self && x != child ==> h'[x] == h[x]
  {
    var h1 := h[child := h[child].(parent := Some(self))];
    h1[self := h1[self].(children := h1[self].children + [child])]
  }

  /** Cutting position `i` out of a list removes one copy of `s[i]`. */
  lemma CutOne(s: seq<Id>, i: nat)
    requires i < |s|
    ensures multiset(s[..i] + s[i + 1..]) == multiset(s) - multiset{s[i]}
  {
    assert s == s[..i] + [s[i]] + s[i + 1..];
  }

  lemma SliceShift(s: seq<Id>, i: nat)
    requires i + 1 < |s|
    ensures s[..i + 1] + s[i + 2..] == [s[0]] + (s[1..][..i] + s[1..][i + 1..])
  {
    assert s[..i + 1] == [s[0]] + s[1..][..i];
    assert s[i + 2..] == s[1..][i + 1..];
  }

  /** `list.remove(x)`: drop the first occurrence of `x`. */
  function RemoveFirst(s: seq<Id>, x: Id): (r: seq<Id>)
    requires x in s
    ensures r == s[..FirstIndex(s, x)] + s[FirstIndex(s, x) + 1..]
    ensures multiset(r) == multiset(s) - multiset{x}
  {
    CutOne(s, FirstIndex(s, x));
    if s[0] == x then s[1..]
    else
      var i := FirstIndex(s[1..], x);
      assert FirstIndex(s, x) == i + 1;
      SliceShift(s, i);
      [s[0]] + RemoveFirst(s[1..], x)
  }

  /** `remove_child`: `None` where `list.remove` raises `ValueError` (the child
      is not in the list); otherwise only the receiver's `children` changes.
      The removed child keeps its `parent`. */
  function RemoveChild(h: Heap, self: Id, child: Id): (r: Option<Heap>)
    requires self in h
    ensures r.None? <==> child !in h[self].children
    ensures r.Some? ==> r.value.Keys == h.Keys
    ensures r.Some? ==> r.value[self] == h[self].(children := RemoveFirst(h[self].children, child))
    ensures r.Some? ==> forall x :: x in h && x != self ==> r.value[x] == h[x]
  {
    if child !in h[self].children then None
    else Some(h[self := h[self].(children := RemoveFirst(h[self].children, child))])
  }

  /** The entry `i` of a list of ancestors, `None` past its end. */
  function At(anc: seq<Id>, i: nat): Option<Id>
  {
    if i < |anc| then Some(anc[i]) else None
  }

  /** `anc` lists the ancestors of `n`, from its parent up to a parentless root. */
  ghost predicate AncestorChain(h: Heap, n: Id, anc: seq<Id>)
  {
    && n in h
    && (forall i :: 0 <= i < |anc| ==> anc[i] in h)
    && h[n].parent == At(anc, 0)
    && (forall i :: 0 <= i < |anc| ==> h[anc[i]].parent == At(anc, i + 1))
  }

  /** `get_level`: the number of steps up the parent chain to a root. The loop
      ends only because the chain is finite, which `anc` witnesses. */
  method GetLevel(h: Heap, n: Id, ghost anc: seq<Id>) returns (level: nat)
    requires AncestorChain(h, n, anc)
    ensures level == |anc|
  {
    level := 0;
    var p := h[n].parent;
    while p.Some?
      invariant level <= |anc|
      invariant p == At(anc, level)
      decreases |anc| - level
    {
      level := level + 1;
      p := h[p.value].parent;
    }
  }

  /** Each ancestor's own chain is the rest of the list. */
  lemma SubChain(h: Heap, n: Id, anc: seq<Id>, i: nat)
    requires AncestorChain(h, n, anc) && i < |anc|
    ensures AncestorChain(h, anc[i], anc[i + 1..])
  {
    var rest := anc[i + 1..];
    assert forall k :: 0 <= k < |rest| ==> rest[k] == anc[i + 1 + k];
  }

  /** A node has at most one ancestor chain, so its level is well defined. */
  lemma {:induction false} ChainUnique(h: Heap, x: Id, y: Id, a: seq<Id>, b: seq<Id>)
    requires AncestorChain(h, x, a) && AncestorChain(h, y, b)
    ensures x == y ==> a == b
    decreases |a|
  {
    if x == y && |a| > 0 {
      SubChain(h, x, a, 0);
      SubChain(h, y, b, 0);
      ChainUnique(h, a[0], b[0], a[1..], b[1..]);
      assert a == [a[0]] + a[1..] && b == [b[0]] + b[1..];
    }
  }

  /** A finite ancestor chain has no cycle: no node appears twice on it and
      the node itself is not its own ancestor. */
  lemma ChainAcyclic(h: Heap, n: Id, anc: seq<Id>)
    requires AncestorChain(h, n, anc)
    ensures forall i, j :: 0 <= i < j < |anc| ==> anc[i] != anc[j]
    ensures n !in anc
  {
    forall i, j | 0 <= i < j < |anc| ensures anc[i] != anc[j] {
      SubChain(h, n, anc, i);
      SubChain(h, n, anc, j);
      ChainUnique(h, anc[i], anc[j], anc[i + 1..], anc[j + 1..]);
      assert |anc[i + 1..]| != |anc[j + 1..]|;
    }
    forall i | 0 <= i < |anc| ensures anc[i] != n {
      SubChain(h, n, anc, i);
      ChainUnique(h, anc[i], n, anc[i + 1..], anc);
      assert |anc[i + 1..]| != |anc|;
    }
  }

  /** After `add_child`, the child's level is one more than the receiver's,
      and the receiver's own level is unchanged, provided the child is not
      the receiver or one of its ancestors. */
  lemma AddChildLevel(h: Heap, self: Id, child: Id, anc: seq<Id>)
    requires AncestorChain(h, self, anc)
    requires child in h && child != self && child !in anc
    ensures AncestorChain(AddChild(h, self, child), self, anc)
    ensures AncestorChain(AddChild(h, self, child), child, [self] + anc)
  {
    var h' := AddChild(h, self, child);
    assert forall i :: 0 <= i < |anc| ==> h'[anc[i]].parent == h[anc[i]].parent;
  }
}

=== FILE: seqs.dfy ===
/** Duplicate-free sequences and positions in a sequence, shared by `unique()`
    (first-appearance order), the order-independent sums and `list.remove`
    (first occurrence). */
module Seqs {

  /** No element occurs twice. */
  predicate NoDup<T(==)>(s: seq<T>)
  {
    forall i, j :: 0 <= i < j < |s| ==> s[i] != s[j]
  }

  /** The position of the first occurrence of `x` in `s`. */
  function FirstIndex<T(==)>(s: seq<T>, x: T): (pos: nat)
    requires x in s
    ensures pos < |s| && s[pos] == x
    ensures x !in s[..pos]
  {
    if s[0] == x then 0
    else
      1 + FirstIndex(s[1..], x)
  }

  /** Any position holding `x` with no earlier `x` is the first occurrence. */
  lemma FirstIndexUnique<T>(s: seq<T>, x: T, p: nat)
    requires p < |s| && s[p] == x && x !in s[..p]
    ensures FirstIndex(s, x) == p
  {
    var q := FirstIndex(s, x);
    forall k | 0 <= k < p ensures s[k] != x {
      assert s[..p][k] == s[k];
    }
    forall k | 0 <= k < q ensures s[k] != x {
      assert s[..q][k] == s[k];
    }
  }

  /** Extending a sequence at the end does not move a first occurrence. */
  lemma FirstIndexOfPrefix<T>(s: seq<T>, n: nat, x: T)
    requires n <= |s| && x in s[..n]
    ensures FirstIndex(s, x) == FirstIndex(s[..n], x)
  {
    var p := FirstIndex(s[..n], x);
    assert s[..n][..p] == s[..p];
    FirstIndexUnique(s, x, p);
  }
}

=== FILE: sums.dfy ===
/** Finite sums of real-valued terms over a list of distinct keys, and the fact
    that such a sum does not depend on the order the keys are listed in. */
module Sums {
  import opened Seqs

  function Sum(vs: seq<string>, f: string -> real): real
  {
    if |vs| == 0 then 0.0 else f(vs[0]) + Sum(vs[1..], f)
  }

  /** Taking one term out of the middle of a sum. */
  lemma {:induction false} SumRemove(vs: seq<string>, f: string -> real, k: nat)
    requires k < |vs|
    ensures Sum(vs, f) == f(vs[k]) + Sum(vs[..k] + vs[k + 1..], f)
  {
    if k > 0 {
      var rest := vs[1..];
      SumRemove(rest, f, k - 1);
      assert rest[..k - 1] + rest[k..] == (vs[..k] + vs[k + 1..])[1..];
    } else {
      assert vs[..k] + vs[k + 1..] == vs[1..];
    }
  }

  /** A list none of whose elements are anything is empty. */
  lemma NothingListed(ws: seq<string>)
    requires forall x :: x !in ws
    ensures ws == []
  {
    forall x ensures x !in multiset(ws) {
      assert x !in ws;
    }
    assert multiset(ws) == multiset{};
  }

  /** Deleting position `k` from a duplicate-free list deletes exactly `ws[k]`. */
  lemma {:induction false} DeleteAt(ws: seq<string>, k: nat)
    requires NoDup(ws) && k < |ws|
    ensures NoDup(ws[..k] + ws[k + 1..])
    ensures forall x :: x in ws[..k] + ws[k + 1..] <==> x in ws && x != ws[k]
  {
    var ws' := ws[..k] + ws[k + 1..];
    forall i, j | 0 <= i < j < |ws'| ensures ws'[i] != ws'[j] {
      var i' := if i < k then i else i + 1;
      var j' := if j < k then j else j + 1;
      assert ws'[i] == ws[i'] && ws'[j] == ws[j'];
    }
    forall x ensures x in ws' <==> x in ws && x != ws[k] {
      if x in ws' {
        var i :| 0 <= i < |ws'| && ws'[i] == x;
        var i' := if i < k then i else i + 1;
        assert ws[i'] == x && i' != k;
      }
      if x in ws && x != ws[k] {
        var i :| 0 <= i < |ws| && ws[i] == x;
        var i' := if i < k then i else i - 1;
        assert ws'[i'] == x;
      }
    }
  }

  /** Two duplicate-free listings of the same keys give the same sum: the
      order in which a Python `set` is iterated does not change a real sum. */
  lemma {:induction false} SumReorder(vs: seq<string>, ws: seq<string>, f: string -> real)
    requires NoDup(vs) && NoDup(ws)
    requires forall x :: x in vs <==> x in ws
    ensures Sum(vs, f) == Sum(ws, f)
    decreases |vs|
  {
    if |vs| == 0 {
      NothingListed(ws);
    } else {
      assert vs[0] in vs;
      var k :| 0 <= k < |ws| && ws[k] == vs[0];
      var ws' := ws[..k] + ws[k + 1..];
      SumRemove(ws, f, k);
      DeleteAt(ws, k);
      DeleteAt(vs, 0);
      assert vs[..0] + vs[0 + 1..] == vs[1..];
      forall x ensures x in vs[1..] <==> x in ws' {
        assert x in vs[1..] <==> x in vs && x != vs[0];
        assert x in ws' <==> x in ws && x != ws[k];
      }
      SumReorder(vs[1..], ws', f);
    }
  }

  /** A sum of terms none of which is positive is not positive. */
  lemma {:induction false} SumNonPositive(vs: seq<string>, f: string -> real)
    requires forall v :: v in vs ==> f(v) <= 0.0
    ensures Sum(vs, f) <= 0.0
  {
    if |vs| > 0 {
      assert vs[0] in vs;
      SumNonPositive(vs[1..], f);
    }
  }

  /** A product, kept as a function of its own so that the solver treats it
      as one term. */
  function Times(a: real, b: real): real
  {
    a * b
  }

  lemma TimesDistributes(a: real, b: real, c: real)
    ensures Times(a + b, c) == Times(a, c) + Times(b, c)
  {
  }

  /** A common factor comes out of a sum. */
  lemma {:induction false} SumScaled(vs: seq<string>, f: string -> real, g: string -> real, c: real)
    requires forall v :: v in vs ==> f(v) == Times(g(v), c)
    ensures Sum(vs, f) == Times(Sum(vs, g), c)
  {
    if |vs| > 0 {
      assert vs[0] in vs;
      SumScaled(vs[1..], f, g, c);
      TimesDistributes(g(vs[0]), Sum(vs[1..], g), c);
    } else {
      assert Times(0.0, c) == 0.0;
    }
  }
}

=== FILE: table.dfy ===
/** A data frame reduced to what the ID3 core reads from it: a sequence of rows,
    each row a map from column name to a categorical value, every cell
    modelled as a string (see README, Left out). */
module Table {
  import opened Seqs

  type Row = map<string, string>
  type Rows = seq<Row>

  /** Every row carries a value for `col`, i.e. `col` is a column of the frame. */
  predicate HasColumn(rows: Rows, col: string)
  {
    forall i :: 0 <= i < |rows| ==> col in rows[i]
  }

  /** The set of values column `col` takes. */
  function Values(rows: Rows, col: string): set<string>
    requires HasColumn(rows, col)
  {
    set i | 0 <= i < |rows| :: rows[i][col]
  }

  /** The elements of `s`, each kept at its first occurrence, in the order
      of those first occurrences. */
  function Dedup(s: seq<string>): (r: seq<string>)
    ensures NoDup(r)
    ensures forall x :: x in r <==> x in s
    ensures |r| <= |s|
    ensures |s| > 0 ==> |r| > 0 && r[0] == s[0]
    ensures forall i, j :: 0 <= i < j < |r| ==> FirstIndex(s, r[i]) < FirstIndex(s, r[j])
  {
    if |s| == 0 then []
    else
      var d := Dedup(s[..|s| - 1]);
      assert forall x :: x in s <==> x in s[..|s| - 1] || x == s[|s| - 1];
      SnocOrder(s, d);
      if s[|s| - 1] in d then d else d + [s[|s| - 1]]
  }

  /** One step of `Dedup`: appending the last element of `s` when it is new
      keeps the entries in order of first occurrence in `s`. */
  lemma SnocOrder(s: seq<string>, d: seq<string>)
    requires |s| > 0
    requires forall x :: x in d <==> x in s[..|s| - 1]
    requires forall k :: 0 <= k < |d| ==> d[k] in s[..|s| - 1]
    requires forall i, j :: 0 <= i < j < |d| ==> FirstIndex(s[..|s| - 1], d[i]) < FirstIndex(s[..|s| - 1], d[j])
    ensures var r := if s[|s| - 1] in d then d else d + [s[|s| - 1]];
            && (forall k :: 0 <= k < |r| ==> r[k] in s)
            && forall i, j :: 0 <= i < j < |r| ==> FirstIndex(s, r[i]) < FirstIndex(s, r[j])
  {
    var n := |s| - 1;
    forall x | x in s[..n] ensures x in s && FirstIndex(s, x) == FirstIndex(s[..n], x) < n {
      FirstIndexOfPrefix(s, n, x);
    }
    var r := if s[n] in d then d else d + [s[n]];
    if s[n] !in d {
      FirstIndexUnique(s, s[n], n);
      forall k | 0 <= k < |r| ensures r[k] in s {
        if k < |d| {
          assert r[k] == d[k];
        }
      }
      forall i, j | 0 <= i < j < |r| ensures FirstIndex(s, r[i]) < FirstIndex(s, r[j]) {
        assert r[i] == d[i];
        if j < |d| {
          assert r[j] == d[j];
        }
      }
    }
  }

  lemma {:induction false} DedupConstant(s: seq<string>, a: string)
    requires |s| > 0
    requires forall i :: 0 <= i < |s| ==> s[i] == a
    ensures Dedup(s) == [a]
  {
    if |s| > 1 {
      DedupConstant(s[..|s| - 1], a);
    }
  }

  /** The column `col` as a sequence, row by row. */
  function Column(rows: Rows, col: string): (r: seq<string>)
    requires HasColumn(rows, col)
    ensures |r| == |rows|
    ensures forall i :: 0 <= i < |rows| ==> r[i] == rows[i][col]
  {
    seq(|rows|, i requires 0 <= i < |rows| => rows[i][col])
  }

  /** `df[col].unique()`: the distinct values of `col` in order of first appearance. */
  function Unique(rows: Rows, col: string): (r: seq<string>)
    requires HasColumn(rows, col)
    ensures NoDup(r)
    ensures forall x :: x in r <==> x in Values(rows, col)
    ensures |rows| > 0 ==> |r| > 0 && r[0] == rows[0][col]
    ensures |r| <= |rows|
    ensures forall x :: x in r <==> x in Column(rows, col)
    ensures forall i, j :: 0 <= i < j < |r| ==>
              FirstIndex(Column(rows, col), r[i]) < FirstIndex(Column(rows, col), r[j])
  {
    var c := Column(rows, col);
    assert forall x :: x in c <==> x in Values(rows, col) by {
      forall x ensures x in c <==> x in Values(rows, col) {
        if x in c {
          var i :| 0 <= i < |c| && c[i] == x;
          assert rows[i][col] == x;
        }
      }
    }
    Dedup(c)
  }

  /** A column holding one value has exactly that value as its `unique()`. */
  lemma UniqueOfConstant(rows: Rows, col: string)
    requires |rows| > 0 && HasColumn(rows, col)
    requires forall i :: 0 <= i < |rows| ==> rows[i][col] == rows[0][col]
    ensures Unique(rows, col) == [rows[0][col]]
  {
    DedupConstant(Column(rows, col), rows[0][col]);
  }

  /** A column with a single distinct value holds it on every row, so
      filtering on that value keeps every row. */
  lemma SingleValueColumn(rows: Rows, col: string)
    requires HasColumn(rows, col)
    requires |Unique(rows, col)| == 1
    ensures |rows| > 0
    ensures Unique(rows, col) == [Unique(rows, col)[0]]
    ensures forall i :: 0 <= i < |rows| ==> rows[i][col] == Unique(rows, col)[0]
    ensures Filter(rows, col, Unique(rows, col)[0]) == rows
  {
    var u := Unique(rows, col);
    assert u == [u[0]];
    forall i | 0 <= i < |rows| ensures rows[i][col] == u[0] {
      assert rows[i][col] in Values(rows, col);
      assert rows[i][col] in u;
    }
  }

  /** `len(df[col].unique()) == 1` on a non-empty frame says every row holds the same value. */
  lemma OneUniqueValue(rows: Rows, col: string)
    requires |rows| > 0 && HasColumn(rows, col)
    ensures |Unique(rows, col)| == 1 <==> forall i :: 0 <= i < |rows| ==> rows[i][col] == rows[0][col]
  {
    if forall i :: 0 <= i < |rows| ==> rows[i][col] == rows[0][col] {
      UniqueOfConstant(rows, col);
    }
    if |Unique(rows, col)| == 1 {
      SingleValueColumn(rows, col);
    }
  }

  /** `df[df[col] == v]`: the rows whose `col` equals `v`, in their original order. */
  function Filter(rows: Rows, col: string, v: string): (r: Rows)
    requires HasColumn(rows, col)
    ensures |r| <= |rows|
    ensures forall c :: HasColumn(rows, c) ==> HasColumn(r, c)
    ensures |r| > 0 <==> v in Values(rows, col)
    ensures |r| == |rows| <==> forall i :: 0 <= i < |rows| ==> rows[i][col] == v
    ensures (forall i :: 0 <= i < |rows| ==> rows[i][col] == v) ==> r == rows
  {
    if |rows| == 0 then []
    else
      var rest := Filter(rows[1..], col, v);
      ValuesCons(rows, col);
      assert rows == [rows[0]] + rows[1..];
      assert forall c :: HasColumn(rows, c) ==> HasColumn(rows[1..], c) && c in rows[0];
      (if rows[0][col] == v then [rows[0]] else []) + rest
  }

  lemma ValuesCons(rows: Rows, col: string)
    requires |rows| > 0 && HasColumn(rows, col)
    ensures Values(rows, col) == {rows[0][col]} + Values(rows[1..], col)
  {
    forall x ensures x in Values(rows, col) <==> x == rows[0][col] || x in Values(rows[1..], col) {
      if x in Values(rows, col) && x != rows[0][col] {
        var i :| 0 <= i < |rows| && rows[i][col] == x;
        assert rows[1..][i - 1][col] == x;
      }
    }
  }

  /** The rows `Filter` keeps are exactly the rows of the original whose `col` is `v`. */
  lemma {:induction false} FilterMembers(rows: Rows, col: string, v: string)
    requires HasColumn(rows, col)
    ensures forall row :: row in Filter(rows, col, v) <==> row in rows && col in row && row[col] == v
  {
    if |rows| > 0 {
      FilterMembers(rows[1..], col, v);
      assert rows == [rows[0]] + rows[1..];
    }
  }

  lemma HasColumnAppend(a: Rows, b: Rows, col: string)
    requires HasColumn(a, col) && HasColumn(b, col)
    ensures HasColumn(a + b, col)
  {
    forall i | 0 <= i < |a + b| ensures col in (a + b)[i] {
      if i < |a| { assert (a + b)[i] == a[i]; } else { assert (a + b)[i] == b[i - |a|]; }
    }
  }

  /** Selection keeps the frame's row order: selecting from two frames stacked
      one on the other stacks the two selections in the same order. */
  lemma {:induction false} FilterAppend(a: Rows, b: Rows, col: string, v: string)
    requires HasColumn(a, col) && HasColumn(b, col)
    ensures HasColumn(a + b, col)
    ensures Filter(a + b, col, v) == Filter(a, col, v) + Filter(b, col, v)
  {
    HasColumnAppend(a, b, col);
    var ab := a + b;
    if |a| == 0 {
      assert ab == b;
    } else {
      assert ab[0] == a[0];
      assert ab[1..] == a[1..] + b;
      var hit := if a[0][col] == v then [a[0]] else [];
      assert Filter(ab, col, v) == hit + Filter(ab[1..], col, v);
      assert Filter(a, col, v) == hit + Filter(a[1..], col, v);
      FilterAppend(a[1..], b, col, v);
    }
  }

  /** The number of rows whose `col` equals `v` (`df[df[col] == v].shape[0]`). */
  function Count(rows: Rows, col: string, v: string): nat
    requires HasColumn(rows, col)
  {
    |Filter(rows, col, v)|
  }

  /** The rows of the partitions `Filter(rows, col, v)` for the `v` in `vs`, pooled. */
  function Parts(rows: Rows, col: string, vs: seq<string>): multiset<Row>
    requires HasColumn(rows, col)
  {
    if |vs| == 0 then multiset{} else multiset(Filter(rows, col, vs[0])) + Parts(rows, col, vs[1..])
  }

  /** The sum of the partition sizes `Count(rows, col, v)` for the `v` in `vs`. */
  function PartSizes(rows: Rows, col: string, vs: seq<string>): nat
    requires HasColumn(rows, col)
  {
    if |vs| == 0 then 0 else Count(rows, col, vs[0]) + PartSizes(rows, col, vs[1..])
  }

  /** Partitions by different values share no row. */
  lemma PartsDisjoint(rows: Rows, col: string, v: string, w: string)
    requires HasColumn(rows, col)
    requires v != w
    ensures multiset(Filter(rows, col, v)) !! multiset(Filter(rows, col, w))
  {
    FilterMembers(rows, col, v);
    FilterMembers(rows, col, w);
  }

  /** The part of a partition contributed by one row. */
  function Hit(row: Row, col: string, v: string): multiset<Row>
    requires col in row
  {
    if row[col] == v then multiset{row} else multiset{}
  }

  lemma FilterCons(rows: Rows, col: string, v: string)
    requires |rows| > 0 && HasColumn(rows, col)
    ensures multiset(Filter(rows, col, v)) == Hit(rows[0], col, v) + multiset(Filter(rows[1..], col, v))
  {
  }

  /** Prepending a row adds it to exactly the partition of its own value. */
  lemma {:induction false} PartsCons(rows: Rows, col: string, vs: seq<string>)
    requires |rows| > 0 && HasColumn(rows, col)
    requires NoDup(vs)
    ensures Parts(rows, col, vs)
         == Parts(rows[1..], col, vs) + (if rows[0][col] in vs then multiset{rows[0]} else multiset{})
  {
    if |vs| > 0 {
      var v, rest := vs[0], vs[1..];
      PartsCons(rows, col, rest);
      FilterCons(rows, col, v);
      HitSplit(rows[0], col, vs);
    }
  }

  lemma HitSplit(row: Row, col: string, vs: seq<string>)
    requires col in row && |vs| > 0 && NoDup(vs)
    ensures Hit(row, col, vs[0]) + (if row[col] in vs[1..] then multiset{row} else multiset{})
         == (if row[col] in vs then multiset{row} else multiset{})
  {
    assert vs == [vs[0]] + vs[1..];
    if row[col] == vs[0] {
      assert row[col] !in vs[1..];
    }
  }

  /** The partitions by a duplicate-free list of values covering the column
      pool back exactly to the rows: every row lies in exactly one partition. */
  lemma {:induction false} PartsCover(rows: Rows, col: string, vs: seq<string>)
    requires HasColumn(rows, col)
    requires NoDup(vs)
    requires forall i :: 0 <= i < |rows| ==> rows[i][col] in vs
    ensures Parts(rows, col, vs) == multiset(rows)
  {
    if |rows| == 0 {
      PartsOfEmpty(rows, col, vs);
    } else {
      PartsCover(rows[1..], col, vs);
      PartsCoverStep(rows, col, vs);
    }
  }

  lemma PartsCoverStep(rows: Rows, col: string, vs: seq<string>)
    requires |rows| > 0 && HasColumn(rows, col) && NoDup(vs)
    requires rows[0][col] in vs
    requires Parts(rows[1..], col, vs) == multiset(rows[1..])
    ensures Parts(rows, col, vs) == multiset(rows)
  {
    PartsCons(rows, col, vs);
    assert rows == [rows[0]] + rows[1..];
  }

  lemma {:induction false} PartsOfEmpty(rows: Rows, col: string, vs: seq<string>)
    requires |rows| == 0
    ensures Parts(rows, col, vs) == multiset{}
  {
    if |vs| > 0 {
      PartsOfEmpty(rows, col, vs[1..]);
    }
  }

  lemma {:induction false} PartSizesOfParts(rows: Rows, col: string, vs: seq<string>)
    requires HasColumn(rows, col)
    ensures PartSizes(rows, col, vs) == |Parts(rows, col, vs)|
  {
    if |vs| > 0 {
      PartSizesOfParts(rows, col, vs[1..]);
    }
  }

  /** `information_gain`'s partitions of the rows by distinct value of `col`
      pool back to the rows themselves, so their sizes add up to the row count. */
  lemma PartitionByUnique(rows: Rows, col: string)
    requires HasColumn(rows, col)
    ensures Parts(rows, col, Unique(rows, col)) == multiset(rows)
    ensures PartSizes(rows, col, Unique(rows, col)) == |rows|
    ensures forall v :: v in Unique(rows, col) ==> Count(rows, col, v) > 0
  {
    var u := Unique(rows, col);
    assert forall i :: 0 <= i < |rows| ==> rows[i][col] in u by {
      forall i | 0 <= i < |rows| ensures rows[i][col] in u {
        assert rows[i][col] in Values(rows, col);
      }
    }
    PartsCover(rows, col, u);
    PartSizesOfParts(rows, col, u);
  }

  /** Filtering keeps only rows of the original, so it only loses labels. */
  lemma ValuesOfFilter(rows: Rows, col: string, v: string, target: string)
    requires HasColumn(rows, col) && HasColumn(rows, target)
    ensures Values(Filter(rows, col, v), target) <= Values(rows, target)
  {
    var f := Filter(rows, col, v);
    FilterMembers(rows, col, v);
    forall x | x in Values(f, target) ensures x in Values(rows, target) {
      var i :| 0 <= i < |f| && f[i][target] == x;
      assert f[i] in rows;
      var j :| 0 <= j < |rows| && rows[j] == f[i];
      assert rows[j][target] == x;
    }
  }
}

=== FILE: tree_dict.dfy ===
/** The persisted form of a decision tree: `DecisionTreeNode.to_dict` and
    `from_dict` (src/id3/id3_algo.py), over a JSON value as `json.load`
    returns it. */
module TreeDict {
  import opened Maybe
  import opened Id3Algo

  /** A JSON value: a string, a number, `true`/`false`, `null`, a list or an
      object. */
  datatype Json =
    | JStr(s: string)
    | JNum(n: real)
    | JBool(b: bool)
    | JNull
    | JArr(items: seq<Json>)
    | JObj(fields: map<string, Json>)

  /** `to_dict`: `{"value": value, "children": {key: child.to_dict(), ...}}`. */
  function ToDict(t: Node): (j: Json)
    ensures j.JObj? && j.fields.Keys == {"value", "children"}
    ensures j.fields["value"] == JStr(t.value)
    ensures j.fields["children"].JObj? && j.fields["children"].fields.Keys == t.children.Keys
    decreases t
  {
    JObj(map["value" := JStr(t.value), "children" := JObj(map k | k in t.children :: ToDict(t.children[k]))])
  }

  /** The inverse `from_dict` is documented to be: read `"value"` and rebuild
      every entry of `"children"`; `None` where the source would raise
      (not an object, a key missing, `"children"` not an object) or where the
      value is not a string. */
  function FromDict(j: Json): (r: Option<Node>)
    ensures !j.JObj? || "value" !in j.fields || "children" !in j.fields ==> r.None?
    ensures r.Some? ==> j.JObj? && "value" in j.fields && "children" in j.fields
    ensures r.Some? ==> j.fields["value"] == JStr(r.value.value)
    ensures r.Some? ==> j.fields["children"].JObj? && j.fields["children"].fields.Keys == r.value.children.Keys
    decreases j
  {
    if !j.JObj? || "value" !in j.fields || "children" !in j.fields then None
    else
      var v, cs := j.fields["value"], j.fields["children"];
      if !v.JStr? || !cs.JObj? then None
      else if forall k :: k in cs.fields ==> FromDict(cs.fields[k]).Some? then
        Some(Node(v.s, map k | k in cs.fields :: FromDict(cs.fields[k]).value))
      else None
  }

  /** Reading back a written tree gives the same tree: same values, same child
      keys, same children, at every level. */
  lemma {:induction false} RoundTrip(t: Node)
    ensures FromDict(ToDict(t)) == Some(t)
    decreases t
  {
    var j := ToDict(t);
    var cs := j.fields["children"].fields;
    forall k | k in cs ensures FromDict(cs[k]) == Some(t.children[k]) {
      assert cs[k] == ToDict(t.children[k]);
      RoundTrip(t.children[k]);
    }
    assert FromDict(j).Some?;
    var r := FromDict(j).value;
    assert r.value == t.value;
    assert r.children.Keys == t.children.Keys;
    assert forall k :: k in r.children ==> r.children[k] == FromDict(cs[k]).value;
    assert r.children == t.children;
  }

  /** An object exactly as `to_dict` writes it: the two keys and nothing else,
      a string value, and children of the same shape. */
  ghost predicate Canonical(j: Json)
    decreases j
  {
    && j.JObj?
    && j.fields.Keys == {"value", "children"}
    && j.fields["value"].JStr?
    && j.fields["children"].JObj?
    && forall k :: k in j.fields["children"].fields ==> Canonical(j.fields["children"].fields[k])
  }

  lemma ToDictChildren(t: Node)
    ensures forall k :: k in t.children ==> ToDict(t).fields["children"].fields[k] == ToDict(t.children[k])
  {
  }

  /** What a successful read tells about the dict it read. */
  lemma FromDictShape(j: Json)
    requires FromDict(j).Some?
    ensures j.JObj? && "value" in j.fields && "children" in j.fields
    ensures j.fields["value"] == JStr(FromDict(j).value.value)
    ensures j.fields["children"].JObj?
    ensures j.fields["children"].fields.Keys == FromDict(j).value.children.Keys
    ensures forall k :: k in j.fields["children"].fields ==>
              FromDict(j.fields["children"].fields[k]) == Some(FromDict(j).value.children[k])
  {
  }

  /** Every canonical dict reads as a tree. */
  lemma {:induction false} CanonicalReads(j: Json)
    requires Canonical(j)
    ensures FromDict(j).Some?
    decreases j
  {
    var cs := j.fields["children"].fields;
    forall k | k in cs ensures FromDict(cs[k]).Some? {
      CanonicalReads(cs[k]);
    }
  }

  /** Conversely, every canonical dict is exactly what `to_dict` writes for
      the tree it reads as, so the two are mutually inverse on canonical
      dicts. */
  lemma {:induction false} ReadThenWrite(j: Json)
    requires Canonical(j)
    ensures FromDict(j).Some? && ToDict(FromDict(j).value) == j
    decreases j
  {
    CanonicalReads(j);
    var t := FromDict(j).value;
    FromDictShape(j);
    ToDictChildren(t);
    var cs := j.fields["children"].fields;
    var d := ToDict(t);
    forall k | k in cs ensures d.fields["children"].fields[k] == cs[k] {
      ReadThenWrite(cs[k]);
    }
    assert d.fields["children"].fields == cs;
    assert d.fields["children"] == j.fields["children"];
    assert d.fields == j.fields;
  }

  /** The errors Python raises in `from_dict` as written. */
  datatype PyError = TypeError | KeyError | AttributeError

  /** What a call `node.from_dict(j)` leaves behind, following the source
      line by line: `value` is the receiver's `value` after the call (`None`
      when it raised before the assignment, so the old value stays),
      `childrenCleared` says the assignment `self.children = {}` completed,
      and `raised` is the exception, `None` when the call returned `None`. */
  datatype AsWrittenOutcome = AsWrittenOutcome(value: Option<Json>, childrenCleared: bool, raised: Option<PyError>)

  /** `from_dict` as written. Subscripting anything but an object raises
      `TypeError`; a missing key raises `KeyError`, after `self.value` is set
      when the missing key is `"children"`; `.items()` on a non-object raises
      `AttributeError`; and the comprehension raises `TypeError` on its first
      entry, because `DecisionTreeNode.from_dict(value)` passes the child
      dict as `self` and no `json`. */
  function FromDictAsWritten(j: Json): (o: AsWrittenOutcome)
    ensures o.value.Some? <==> j.JObj? && "value" in j.fields
    ensures o.value.Some? ==> o.value.value == j.fields["value"]
    ensures o.raised.None? <==>
              (j.JObj? && "value" in j.fields && "children" in j.fields && j.fields["children"] == JObj(map[]))
    ensures o.childrenCleared <==> o.raised.None?
    ensures (&& j.JObj? && "value" in j.fields && "children" in j.fields
             && j.fields["children"].JObj? && j.fields["children"].fields != map[])
            ==> o.raised == Some(TypeError)
  {
    match j
    case JObj(f) =>
      if "value" !in f then AsWrittenOutcome(None, false, Some(KeyError))
      else
        var v := Some(f["value"]);
        if "children" !in f then AsWrittenOutcome(v, false, Some(KeyError))
        else (
          match f["children"]
          case JObj(cs) =>
            if cs == map[] then AsWrittenOutcome(v, true, None) else AsWrittenOutcome(v, false, Some(TypeError))
          case _ => AsWrittenOutcome(v, false, Some(AttributeError))
        )
    case _ => AsWrittenOutcome(None, false, Some(TypeError))
  }

  /** As written, reading a dict written by `to_dict` never yields a tree:
      the receiver takes the root's value, and then a leaf's dict returns
      `None` with the children reset, any other dict raises `TypeError`. */
  lemma FromDictAsWrittenLosesTree(t: Node)
    ensures FromDictAsWritten(ToDict(t))
         == if t.IsLeaf() then AsWrittenOutcome(Some(JStr(t.value)), true, None)
            else AsWrittenOutcome(Some(JStr(t.value)), false, Some(TypeError))
  {
    var cs := ToDict(t).fields["children"].fields;
    assert cs == map[] <==> t.IsLeaf();
  }

  /** The concrete case: the one-split tree `color -> {white: cat}`. */
  lemma FromDictAsWrittenCounterexample()
    ensures var t := Node("color", map["white" := Node("cat", map[])]);
            FromDict(ToDict(t)) == Some(t) && FromDictAsWritten(ToDict(t)).raised == Some(TypeError)
  {
    var t := Node("color", map["white" := Node("cat", map[])]);
    assert "white" in t.children;
    RoundTrip(t);
    FromDictAsWrittenLosesTree(t);
  }
}
